=== FILE: README.md ===
# Cloth net: verified model of the net wiring and the frame-loop controls

This project models the original logic of a small pygame/pymunk cloth simulation:

- **The net constructor** (`Net.__init__`). It lays out a square `size × size` grid of integer
  positions, `grid[i][j] = (x + i·sep, y − j·sep)`. It creates one free point for every cell outside
  row `j = 0`, stored flat and column by column. It pins the top free point of every column to a
  static anchor at the omitted row-0 cell. Finally it walks the free points in index order and links
  each one to its south neighbour (`k → k+1`, unless `k` is the bottom of its column) and to its east
  neighbour (`k → k+(size−1)`, unless `k` is in the last column).
- **The coordinate flip** `convert_coords`. It maps a world point, with y pointing up, to a window
  point, with y pointing down, about the 800-pixel window height.
- **The keyboard controls** of the frame loop. Space toggles `play`, 'a' lowers the frame rate while
  it is above 0, 'd' raises it, and 'r' only announces a reset. A playing frame steps the physics
  world by `1 / FPS`.

Physics bodies are abstracted away. A free point is its start position (`Coords.Point`). A
body-to-body pin joint is `Link(from, to)`, the pair of flat free-node indices it joins. A joint to a
static body is `Pin(node, anchor)`. Construction is `NetWiring.BuildNet`. Its loops are
`BuildGrid`, `PlaceFreeNodes`, `PinAnchors` and `WireLinks`, in the same order and with the same
guards as the constructor. Two tests in the model are not written in the source. `PinAnchors` checks
`node >= freeCount`, which stands for the `IndexError` Python raises on the out-of-range index at line
150. `WireLinks` checks `size >= 2` before its loop, which stands for a link loop that is empty when
`size < 2` (the constructor never reaches it at size 1).

The flat-index guards are checked against an independent geometric reference. Free node `k` lies in
column `k / (size−1)` and row `k % (size−1) + 1`. `SouthOf` and `EastOf` describe grid neighbours in
those terms. `GuardsMatchAdjacency` proves that the constructor's two modulo/bound guards select
exactly those neighbours, in both directions. `WireLinks` then guarantees four things about the
links: every link joins neighbours, every neighbour pair is linked, the links are strictly ordered
(so no pair is repeated), and there are `size·(size−2)` vertical and `(size−1)²` horizontal links.

The link loop is modelled one visited node at a time. `LinksAt(size, n, k)` is what visiting free
node `k` appends, where `n` is the length of the free list, as the guard reads it. `LinksUpTo` is the
list after visiting every node below `k`. The per-node lemmas (`LinksAtSound`, `LinksAtComplete`,
`CountLinksAt`) are lifted to the whole loop by induction on `k`. Counts such as `size·(size−1)` are
written as repeated addition (`IndexMath.Blocks`), and `IndexMath.BlocksIsProduct` turns them back
into products.

Python's `range` of a zero or negative size is empty, so `Net(…, size ≤ 0, …)` builds an empty net
without error. With `size == 1` the free list is empty, so indexing `free_nodes[0]` for the first
anchor raises `IndexError`. `BuildNet` returns `Err(IndexError)` exactly when `size == 1`. The
comment at line 155 speaks of connecting each free node to every NSEW neighbour. The code creates
only south and east joints, and a pin joint is symmetric, so north and west are those same joints
seen from the other end. The model follows the code.

## Model

| member | source | states |
|---|---|---|
| Coords.ConvertCoords | src/main.py:39-40 | the flip keeps x and reflects y about half the window height: `q.y + p.y == 800` |
| Coords.ConvertCoordsInvolution | src/main.py:39-40 | converting a point twice gives back the original point |
| NetWiring.BuildGrid | src/main.py:131-141 | the zero-initialised table ends as `size` columns of `size` cells, each cell `(i, j)` at `(x + i·sep, y − j·sep)` |
| NetWiring.PlaceFreeNodes | src/main.py:143-147 | exactly `size·(size−1)` free nodes; node `k` is `grid[k/(size−1)][k%(size−1)+1]`, so row 0 is never instantiated |
| NetWiring.FreeNodeOfCell | src/main.py:143-147 | conversely, every cell `(i, j)` with `j ≥ 1` is free node `i·(size−1)+j−1`, which is in bounds |
| NetWiring.FreeNodesBelowAnchors | src/main.py:141-147 | with a positive separation every free node starts strictly below the anchors' row `y` |
| NetWiring.PinAnchors | src/main.py:149-153 | fails exactly when `size == 1`; otherwise `size` anchors, anchor `i` pinning free node `i·(size−1)`, which exists and is the row-1 node of column `i`, to position `(x + i·sep, y)` |
| NetWiring.AnchorsAboveTopNodes | src/main.py:149-153 | each anchor is the omitted cell `grid[i][0]` on row `y`, and the node it pins sits at exactly `(anchor.x, anchor.y − sep)`: same column, one separation away along y; no two anchors pin the same node |
| NetWiring.GuardsMatchAdjacency | src/main.py:159-171 | `b` is the in-bounds south neighbour of `a` iff `b == a+1` and `a % (size−1) != size−2`; `b` is the in-bounds east neighbour iff `b == a+(size−1)` and `a < len − (size−1)` |
| NetWiring.LinksAt | src/main.py:159-171 | visiting free node `k` makes at most two links: `k→k+1` unless `k % (size−1) == size−2`, then `k→k+(size−1)` unless `k ≥ n−(size−1)`; `LinksAtSound`, `LinksAtComplete`, `LinksAtOrdered` and `CountLinksAt` state what they mean |
| NetWiring.LinksAtSound | src/main.py:159-171 | every link created while visiting free node `k` goes forward from `k` to a grid neighbour of `k` |
| NetWiring.LinksAtComplete | src/main.py:159-171 | every south or east grid neighbour of `k` is linked from `k` while visiting `k` |
| NetWiring.LinksAtOrdered | src/main.py:159-171 | the south link, when made, comes before the east link, and both start at `k` |
| NetWiring.CountLinksAt | src/main.py:159-171 | visiting `k` makes one vertical link iff `k` is not a column bottom, one horizontal link iff `k` is not in the last column, and no other link |
| NetWiring.LinksUpToSound | src/main.py:156-171 | after visiting the nodes below `k`, every link made goes forward between grid neighbours |
| NetWiring.LinksUpToComplete | src/main.py:156-171 | after visiting the nodes below `k`, every neighbour pair whose first node is below `k` is linked |
| NetWiring.LinksUpToOrdered | src/main.py:156-171 | the links are made in strictly increasing (from, to) order, all from nodes already visited |
| NetWiring.LinksUpToSouth | src/main.py:156-163 | after visiting the nodes below `k`, there is one vertical link per visited node that is not the bottom of its column |
| NetWiring.LinksUpToEast | src/main.py:156-171 | after visiting the nodes below `k`, there is one horizontal link per visited node outside the last `size−1` |
| NetWiring.NotLastColumnBeforeValue | src/main.py:165-168 | the number of nodes below `k` that pass the horizontal guard `i < len(free) − (size−1)` is `k` until the last column starts, and `n − (size−1)` from there on |
| NetWiring.LinksUpToLength | src/main.py:156-171 | every link made is either vertical or horizontal |
| NetWiring.NotBottomBeforeColumns | src/main.py:159-163 | over `q` whole columns of `m` nodes, `q·(m−1)` free nodes pass the vertical guard |
| NetWiring.WiringComplete | src/main.py:155-171 | visiting every free node yields exactly the south/east neighbour pairs, ordered, without repeats, with the expected vertical and horizontal counts |
| NetWiring.WireLinks | src/main.py:155-171 | the links are exactly the south/east neighbour pairs, strictly ordered, with no unordered pair twice; `size·(size−2)` vertical and `(size−1)²` horizontal links; none when `size < 2` |
| NetWiring.OrderedLinksAreDistinct | src/main.py:156-171 | strictly ordered forward links never repeat an unordered pair or join a node to itself |
| NetWiring.BuildNet | src/main.py:122-171 | `Err(IndexError)` iff `size == 1`; empty net for `size ≤ 0`; otherwise grid, free nodes, anchors and links as above |
| NetWiring.NetCounts | src/main.py:143-171 | a built net has `size·(size−1)` free nodes, `size` anchors, `size·(size−2)` vertical and `(size−1)²` horizontal joints |
| NetWiring.LinkedNodesAreNeighbours | src/main.py:156-171 | every joint of a built net joins two distinct existing free nodes exactly one separation apart, horizontally or vertically |
| NetWiring.DemoNet | src/main.py:190 | the demonstration net `Net(300, 500, 4, 100, 0)` has 12 free nodes, 4 anchors, 8 vertical and 9 horizontal joints |
| Controls.OnKeyDown | src/main.py:207-215 | `play` changes iff the key is space; FPS rises by one iff 'd'; FPS falls by one iff 'a' and FPS is above the floor; otherwise FPS is unchanged; FPS never drops below the floor |
| Controls.Run | src/main.py:202-215 | no contract of its own: applies `OnKeyDown` to each KEYDOWN key in arrival order; `RunConcat` and `RunLastKey` state that order |
| Controls.RunConcat | src/main.py:202-215 | the event loop handles keys in arrival order: handling `a` and then `b` leaves the same state as handling `a + b` |
| Controls.RunLastKey | src/main.py:207-215 | the last key pressed acts, through the key handler, on the state left by the earlier keys |
| Controls.ToggleTwice | src/main.py:208-209 | pressing space twice restores the state |
| Controls.LowerThenRaise | src/main.py:210-215 | 'a' then 'd' restores the state whenever 'a' was allowed to lower FPS |
| Controls.FpsStaysAboveFloor | src/main.py:210-211 | no key sequence takes FPS below a floor it starts at or above |
| Controls.FpsNeverNegative | src/main.py:210-211 | from the initial state, FPS never goes negative, whatever keys are pressed |
| Controls.PressLowerRepeatedly | src/main.py:210-211 | `n` presses of 'a' lower FPS by exactly `n` while it stays at or above the floor |
| Controls.StepSize | src/main.py:244 | the time step exists only for a non-zero frame rate, and `dt · fps == 1` |
| Controls.Frame | src/main.py:242-244 | a paused frame does not step; a playing frame fails iff FPS is 0, and otherwise steps by `1 / FPS` |
| Controls.FpsZeroCrashesFrame | src/main.py:210-244 | as written, fifty presses of 'a' from the start reach FPS 0 while playing, and the next frame divides by zero |
| Controls.IntendedFloorNeverCrashes | src/main.py:210-244 | with the floor at 1, no key sequence from the start reaches a frame that divides by zero |

## Findings

| source | as written | input that shows it | evidently intended | confidence | as-written member | corrected member |
|---|---|---|---|---|---|---|
| src/main.py:210 | 'a' lowers FPS while `FPS > 0`, so FPS can reach 0, and `space.step(1 / FPS)` at line 244 then raises `ZeroDivisionError` | from the start (playing, FPS 50), press 'a' fifty times; the next frame computes `1 / 0` | keep FPS at 1 or above (`FPS > 1`), so every playing frame has a time step | not executed; high | Controls.FpsZeroCrashesFrame | Controls.IntendedFloorNeverCrashes |

`Controls.OnKeyDown` takes the floor as a parameter. `SourceFloor` (0) is the loop as written, and
`IntendedFloor` (1) is the corrected guard.

## Left out

- Physics (pymunk): `Body`, `Circle`, `PinJoint`, `space.add` and `space.step`. This is a foreign
  library whose behaviour is not visible, so joints are index pairs and bodies are start positions.
- Rendering and I/O (pygame): window setup, fonts, `render_text`, `print_fps`, every `draw` method,
  `clock.tick`, event polling and the QUIT handler.
- Coords.ConvertCoords: works on integer points only. The `int()` truncation of the float body
  positions that pymunk reports is floating-point numerics and is not modelled.
- Controls.StepSize: `1 / FPS` is exact real division, not an IEEE double quotient. Only whether the
  division has a value matters here.
- The gravity value and the colour constants are not modelled. Neither affects the wiring.
- The `position_log` trail accumulation is not modelled. It is render-side state only.
- The `Pendulum` class is never instantiated, so it is not modelled. Neither are the unused `pinned`
  constructor parameter, the per-point colour `number`, or the commented-out code.
- The `print` diagnostics, including `print(i)` at line 167 and the FPS messages, are output only.
  The 'r' key only prints, so it is modelled as changing nothing.
- Rectangular grids are not modelled. The constructor sets `n_rows == n_cols == size` (lines
  123-124), so the flat-index arithmetic that mixes the two never sees a non-square grid. The model
  takes a single `size`.

=== FILE: controls.dfy ===
/**
 The keyboard controls of the frame loop: space pauses and resumes, 'a'
 lowers the frame rate while it is above a floor, 'd' raises it, 'r' only
 announces a reset. Each frame that is playing advances the physics world
 by `1 / fps` seconds, which has no value once the frame rate reaches 0.
 */
module Controls {

  /** The keys the loop distinguishes; any other key changes nothing. */
  datatype Key = Space | KeyA | KeyD | KeyR | OtherKey

  /** Whether the simulation is running, and the target frame rate. */
  datatype ControlState = ControlState(play: bool, fps: int)

  /** What a frame does: step the world by `dt`, stay paused, or divide by zero. */
  datatype FrameOutcome = Stepped(dt: real) | Paused | ZeroDivision

  /** The loop starts playing at 50 frames per second. */
  const InitialState: ControlState := ControlState(true, 50)

  /** 'a' lowers the frame rate only while it is above this value, as the loop is written. */
  const SourceFloor: int := 0

  /** The lowest frame rate at which `1 / fps` still has a value. */
  const IntendedFloor: int := 1

  /** Handles one key press; `floor` is the value the frame rate must exceed for 'a' to lower it. */
  function OnKeyDown(s: ControlState, key: Key, floor: int): (r: ControlState)
    ensures r.play != s.play <==> key == Space
    ensures r.fps == s.fps + 1 <==> key == KeyD
    ensures r.fps == s.fps - 1 <==> key == KeyA && s.fps > floor
    ensures r.fps == s.fps <==> key != KeyD && !(key == KeyA && s.fps > floor)
    ensures s.fps >= floor ==> r.fps >= floor
  {
    match key
    case Space => s.(play := !s.play)
    case KeyA => if s.fps > floor then s.(fps := s.fps - 1) else s
    case KeyD => s.(fps := s.fps + 1)
    case KeyR => s
    case OtherKey => s
  }

  /** Handles a sequence of key presses in order. */
  function Run(s: ControlState, keys: seq<Key>, floor: int): ControlState
    decreases |keys|
  {
    if |keys| == 0 then s else Run(OnKeyDown(s, keys[0], floor), keys[1..], floor)
  }

  /** Key presses are handled in arrival order: handling `a` then `b` is handling `a + b`. */
  lemma {:induction false} RunConcat(s: ControlState, a: seq<Key>, b: seq<Key>, floor: int)
    ensures Run(s, a + b, floor) == Run(Run(s, a, floor), b, floor)
    decreases |a|
  {
    if |a| > 0 {
      assert (a + b)[0] == a[0] && (a + b)[1..] == a[1..] + b;
      RunConcat(OnKeyDown(s, a[0], floor), a[1..], b, floor);
    } else {
      assert a + b == b;
    }
  }

  /** The last key pressed acts on the state the earlier keys left. */
  lemma RunLastKey(s: ControlState, keys: seq<Key>, key: Key, floor: int)
    ensures Run(s, keys + [key], floor) == OnKeyDown(Run(s, keys, floor), key, floor)
  {
    RunConcat(s, keys, [key], floor);
    assert [key][1..] == [];
  }

  /** `n` presses of the same key. */
  function Repeat(key: Key, n: nat): seq<Key>
  {
    seq(n, _ => key)
  }

  /** The time step for one frame at `fps` frames per second; it exists only for a non-zero rate. */
  function StepSize(fps: int): (dt: real)
    requires fps != 0
    ensures dt * (fps as real) == 1.0
  {
    1.0 / (fps as real)
  }

  /** One frame: a paused loop does not step; a playing loop steps by `1 / fps`, which fails at 0. */
  function Frame(s: ControlState): (o: FrameOutcome)
    ensures o.Paused? <==> !s.play
    ensures o.ZeroDivision? <==> s.play && s.fps == 0
    ensures o.Stepped? ==> s.fps != 0 && o.dt * (s.fps as real) == 1.0
  {
    if !s.play then Paused
    else if s.fps == 0 then ZeroDivision
    else Stepped(StepSize(s.fps))
  }

  /** Pressing space twice restores the play state, and the frame rate never moves. */
  lemma ToggleTwice(s: ControlState, floor: int)
    ensures OnKeyDown(OnKeyDown(s, Space, floor), Space, floor) == s
  {
  }

  /** Lowering then raising the frame rate restores it, whenever lowering was allowed. */
  lemma LowerThenRaise(s: ControlState, floor: int)
    requires s.fps > floor
    ensures OnKeyDown(OnKeyDown(s, KeyA, floor), KeyD, floor) == s
  {
  }

  /** No sequence of key presses takes the frame rate below the floor it starts at or above. */
  lemma {:induction false} FpsStaysAboveFloor(s: ControlState, keys: seq<Key>, floor: int)
    requires s.fps >= floor
    ensures Run(s, keys, floor).fps >= floor
    decreases |keys|
  {
    if |keys| > 0 {
      FpsStaysAboveFloor(OnKeyDown(s, keys[0], floor), keys[1..], floor);
    }
  }

  /** As the loop is written, the frame rate never goes negative, whatever keys are pressed. */
  lemma FpsNeverNegative(keys: seq<Key>)
    ensures Run(InitialState, keys, SourceFloor).fps >= 0
  {
    FpsStaysAboveFloor(InitialState, keys, SourceFloor);
  }

  /** `n` presses of 'a' lower the frame rate by exactly `n` while it stays at or above the floor. */
  lemma {:induction false} PressLowerRepeatedly(s: ControlState, n: nat, floor: int)
    requires s.fps - n >= floor
    ensures Run(s, Repeat(KeyA, n), floor) == s.(fps := s.fps - n)
    decreases n
  {
    if n > 0 {
      assert Repeat(KeyA, n)[1..] == Repeat(KeyA, n - 1);
      PressLowerRepeatedly(s.(fps := s.fps - 1), n - 1, floor);
    }
  }

  /** As written, fifty presses of 'a' from the start bring the frame rate to 0, and the next frame divides by zero. */
  lemma FpsZeroCrashesFrame()
    ensures Run(InitialState, Repeat(KeyA, 50), SourceFloor) == ControlState(true, 0)
    ensures Frame(Run(InitialState, Repeat(KeyA, 50), SourceFloor)) == ZeroDivision
  {
    PressLowerRepeatedly(InitialState, 50, SourceFloor);
  }

  /** With the floor at 1, no sequence of key presses from the start ever reaches a frame that divides by zero. */
  lemma IntendedFloorNeverCrashes(keys: seq<Key>)
    ensures Run(InitialState, keys, IntendedFloor).fps >= 1
    ensures !Frame(Run(InitialState, keys, IntendedFloor)).ZeroDivision?
  {
    FpsStaysAboveFloor(InitialState, keys, IntendedFloor);
  }
}

=== FILE: coords.dfy ===
/**
 Screen geometry: the physics world measures y upwards, the window measures
 y downwards, and `ConvertCoords` flips between the two about the window
 height. Positions are integers here.
 */
module Coords {

  /** Height of the window in pixels (the window is square, 800 by 800). */
  const ScreenHeight: int := 800

  /** A point of the plane with integer coordinates. */
  datatype Point = Point(x: int, y: int)

  /** Flips a point between the physics convention (y up) and the window convention (y down). */
  function ConvertCoords(p: Point): (q: Point)
    ensures q.x == p.x
    ensures q.y + p.y == ScreenHeight
  {
    Point(p.x, ScreenHeight - p.y)
  }

  /** Converting twice gives back the original point: the flip is its own inverse. */
  lemma ConvertCoordsInvolution(p: Point)
    ensures ConvertCoords(ConvertCoords(p)) == p
  {
  }
}

=== FILE: index_math.dfy ===
/**
 Facts about the flat-index arithmetic of the net: counting indices block
 by block, and Euclidean division by a positive block length, under which
 a flat index `q * m + r` with `0 <= r < m` splits back into its block `q`
 and its offset `r`.
 */
module IndexMath {

  /** Number of indices in `q` consecutive blocks of `m`, counted block by block. */
  function Blocks(q: nat, m: nat): nat
  {
    if q == 0 then 0 else Blocks(q - 1, m) + m
  }

  /** `q` blocks of `m` indices hold `q * m` indices. */
  lemma {:induction false} BlocksIsProduct(q: nat, m: nat)
    ensures Blocks(q, m) == q * m
  {
    if q > 0 {
      BlocksIsProduct(q - 1, m);
      MulSucc(q - 1, m);
    }
  }

  /** A value written as `q * m + r` with `0 <= r < m` has quotient `q` and remainder `r`. */
  lemma DivModUnique(a: int, m: int, q: int, r: int)
    requires m > 0 && 0 <= r < m && a == q * m + r
    ensures a / m == q && a % m == r
  {
    if a / m < q {
      MulMonotone(a / m + 1, q, m);
    } else if q < a / m {
      MulMonotone(q + 1, a / m, m);
    }
  }

  /** Multiplying by a positive factor keeps the order of the other factor. */
  lemma MulMonotone(a: int, b: int, m: int)
    requires a <= b && m > 0
    ensures a * m <= b * m
  {
    assert b * m - a * m == (b - a) * m;
  }

  /** One more block of `m` adds `m`. */
  lemma MulSucc(q: int, m: int)
    ensures (q + 1) * m == q * m + m
  {
  }

  /** Block and offset of a flat index `q * m + r`. */
  lemma FlatIndex(q: int, r: int, m: int)
    requires m > 0 && 0 <= r < m
    ensures (q * m + r) / m == q && (q * m + r) % m == r
  {
    DivModUnique(q * m + r, m, q, r);
  }

  /** Moving one index forward stays in the same block unless it leaves the last offset. */
  lemma StepWithinBlock(k: int, m: int)
    requires m > 0 && k % m != m - 1
    ensures (k + 1) / m == k / m && (k + 1) % m == k % m + 1
  {
    DivModUnique(k + 1, m, k / m, k % m + 1);
  }

  /** Moving a whole block forward keeps the offset and advances the block by one. */
  lemma StepOneBlock(k: int, m: int)
    requires m > 0
    ensures (k + m) / m == k / m + 1 && (k + m) % m == k % m
  {
    DivModUnique(k + m, m, k / m + 1, k % m);
  }
}

=== FILE: net_model.dfy ===
/**
 The data model of the cloth net and the grid geometry that serves as the
 reference for its wiring.

 Physics bodies are abstracted away: a free point is its start position, a
 body-to-body joint is the pair of flat free-node indices it joins, and a
 joint to a static body is the free-node index plus the anchor's position.
 Free nodes are stored flat, column by column, `size - 1` per column (the
 top cell of every column is left to the anchors), so free node `k` lies in
 column `k / (size - 1)` and grid row `k % (size - 1) + 1`.
 */
module NetModel {
  import opened Coords
  import opened IndexMath

  /** A pin joint: between two free nodes, or from a free node to a static anchor. */
  datatype Connector = Link(from: nat, to: nat) | Pin(node: nat, anchor: Point)

  /** Everything the constructor builds, in creation order. */
  datatype Net = Net(grid: seq<seq<Point>>, freeNodes: seq<Point>, fixedNodes: seq<Connector>, connectors: seq<Connector>)

  /** The only failure of construction: indexing the (empty) free-node list. */
  datatype NetError = IndexError

  datatype Result<T> = Ok(value: T) | Err(error: NetError)

  /** The direction of a body-to-body link on the grid. */
  datatype Direction = South | East

  /** Grid cell `(i, j)`: column `i` to the right of `x`, row `j` below `y`. */
  function GridPosition(x: int, y: int, sep: int, i: int, j: int): Point
  {
    Point(x + i * sep, y - j * sep)
  }

  /** Free nodes per column: every cell of the column but the top one. */
  function PerColumn(size: nat): nat
  {
    if size == 0 then 0 else size - 1
  }

  /** Number of free nodes in the whole net: `size` columns of `PerColumn(size)` cells each. */
  function FreeCount(size: nat): nat
  {
    Blocks(size, PerColumn(size))
  }

  /** Grid column of free node `k`, when every column holds `m` free nodes. */
  function Column(m: nat, k: nat): nat
    requires m > 0
  {
    k / m
  }

  /** Grid row of free node `k`; row 0 holds the anchors, so free rows start at 1. */
  function Row(m: nat, k: nat): nat
    requires m > 0
  {
    k % m + 1
  }

  /** Free node `b` is the grid neighbour directly below free node `a`. */
  predicate SouthOf(m: nat, a: nat, b: nat)
    requires m > 0
  {
    Column(m, a) == Column(m, b) && Row(m, b) == Row(m, a) + 1
  }

  /** Free node `b` is the grid neighbour directly right of free node `a`. */
  predicate EastOf(m: nat, a: nat, b: nat)
    requires m > 0
  {
    Row(m, a) == Row(m, b) && Column(m, b) == Column(m, a) + 1
  }

  /** `a` and `b` are free nodes of a `size` net and `b` is `a`'s south or east neighbour. */
  predicate Adjacent(size: nat, a: nat, b: nat)
  {
    && size >= 2
    && a < FreeCount(size)
    && b < FreeCount(size)
    && (SouthOf(size - 1, a, b) || EastOf(size - 1, a, b))
  }

  /** `c` is a body-to-body link going in direction `d`. */
  predicate Goes(m: nat, c: Connector, d: Direction)
    requires m > 0
  {
    c.Link? && (if d == South then SouthOf(m, c.from, c.to) else EastOf(m, c.from, c.to))
  }

  /** Number of links among the first `i` entries of `cs` that go in direction `d`. */
  function CountGoingBefore(m: nat, cs: seq<Connector>, d: Direction, i: nat): (n: nat)
    requires m > 0 && i <= |cs|
    ensures n <= i
  {
    if i == 0 then 0
    else CountGoingBefore(m, cs, d, i - 1) + (if Goes(m, cs[i - 1], d) then 1 else 0)
  }

  /** Number of links of `cs` that go in direction `d`. */
  function CountGoing(m: nat, cs: seq<Connector>, d: Direction): (n: nat)
    requires m > 0
    ensures n <= |cs|
  {
    CountGoingBefore(m, cs, d, |cs|)
  }

  /** Two positions one separation apart: `q` lies one step right of or one step below `p`. */
  predicate UnitStep(p: Point, q: Point, sep: int)
  {
    (q.x == p.x + sep && q.y == p.y) || (q.x == p.x && q.y == p.y - sep)
  }

  /** Link `c` comes strictly before link `d` in (from, to) order. */
  predicate LinkBefore(c: Connector, d: Connector)
  {
    c.Link? && d.Link? && (c.from < d.from || (c.from == d.from && c.to < d.to))
  }

  /** The links of `cs` appear in strictly increasing (from, to) order. */
  predicate LinksOrdered(cs: seq<Connector>)
  {
    forall i, j :: 0 <= i < j < |cs| ==> LinkBefore(cs[i], cs[j])
  }

  /** `c` and `d` join the same two nodes, in either orientation. */
  predicate SamePair(c: Connector, d: Connector)
    requires c.Link? && d.Link?
  {
    (c.from == d.from && c.to == d.to) || (c.from == d.to && c.to == d.from)
  }

  /** No unordered pair of nodes is joined twice, and no link joins a node to itself. */
  predicate NoDuplicateLinks(cs: seq<Connector>)
  {
    && (forall i :: 0 <= i < |cs| ==> cs[i].Link? && cs[i].from != cs[i].to)
    && (forall i, j :: 0 <= i < j < |cs| ==> !SamePair(cs[i], cs[j]))
  }

  // ---------------------------------------------------------------------------
  // Properties of a constructed net

  /** The grid holds `size` columns of `size` positions at the expected coordinates. */
  predicate GridLaidOut(grid: seq<seq<Point>>, x: int, y: int, size: nat, sep: int)
  {
    && |grid| == size
    && (forall i :: 0 <= i < size ==> |grid[i]| == size)
    && (forall i, j :: 0 <= i < size && 0 <= j < size ==> grid[i][j] == GridPosition(x, y, sep, i, j))
  }

  /** Every free node of `free` sits at its (Column, Row) cell, so none sits on the top row. */
  predicate FreeNodesAtCells(free: seq<Point>, x: int, y: int, size: nat, sep: int)
  {
    size >= 2 ==>
      forall k :: 0 <= k < |free| ==> free[k] == GridPosition(x, y, sep, Column(size - 1, k), Row(size - 1, k))
  }

  /** All free nodes are created, each at its (Column, Row) cell. */
  predicate FreeNodesPlaced(free: seq<Point>, x: int, y: int, size: nat, sep: int)
  {
    |free| == FreeCount(size) && FreeNodesAtCells(free, x, y, size, sep)
  }

  /**
   Anchor `i` pins free node `i * (size - 1)`, the top free node of column
   `i`, to the omitted top-row cell of that column.
   */
  predicate AnchorsPinned(fixed: seq<Connector>, x: int, y: int, size: nat, sep: int)
  {
    && |fixed| == size
    && (size >= 2 ==>
          forall i :: 0 <= i < size ==>
            && fixed[i].Pin?
            && fixed[i].node == i * (size - 1)
            && fixed[i].node < FreeCount(size)
            && Column(size - 1, fixed[i].node) == i
            && Row(size - 1, fixed[i].node) == 1
            && fixed[i].anchor == GridPosition(x, y, sep, i, 0))
  }

  /** The links are exactly the south and east neighbour pairs, each once, in creation order. */
  ghost predicate LinksWired(conns: seq<Connector>, size: nat)
  {
    && (size < 2 ==> conns == [])
    && (forall i :: 0 <= i < |conns| ==> conns[i].Link? && Adjacent(size, conns[i].from, conns[i].to))
    && (forall a: nat, b: nat :: Adjacent(size, a, b) ==> Link(a, b) in conns)
    && LinksOrdered(conns)
    && NoDuplicateLinks(conns)
    && (size >= 2 ==>
          && CountGoing(size - 1, conns, South) == Blocks(size, size - 2)
          && CountGoing(size - 1, conns, East) == Blocks(size - 1, size - 1)
          && |conns| == Blocks(size, size - 2) + Blocks(size - 1, size - 1))
  }

  /** The net built from `(x, y, size, sep)` for a non-negative `size`. */
  ghost predicate WiredNet(net: Net, x: int, y: int, size: nat, sep: int)
  {
    && GridLaidOut(net.grid, x, y, size, sep)
    && FreeNodesPlaced(net.freeNodes, x, y, size, sep)
    && AnchorsPinned(net.fixedNodes, x, y, size, sep)
    && LinksWired(net.connectors, size)
  }
}

=== FILE: net_wiring.dfy ===
/**
 The construction of the cloth net, loop by loop as the constructor does it:
 lay out the grid, create the free nodes, pin the top free node of every
 column to a static anchor, then link every free node to its south and east
 neighbours. Each step is related to the reference geometry of `NetModel`.
 */
module NetWiring {
  import opened Coords
  import opened NetModel
  import opened IndexMath

  // ---------------------------------------------------------------------------
  // Grid and free nodes

  /** Lays out the grid: a `size` by `size` table of zeros, then every cell filled with its position. */
  method BuildGrid(x: int, y: int, size: nat, sep: int) returns (grid: seq<seq<Point>>)
    ensures GridLaidOut(grid, x, y, size, sep)
  {
    var gridLine: seq<Point> := [];
    var i := 0;
    while i < size
      invariant 0 <= i <= size
      invariant |gridLine| == i
    {
      gridLine := gridLine + [Point(0, 0)];
      i := i + 1;
    }
    grid := [];
    i := 0;
    while i < size
      invariant 0 <= i <= size
      invariant |grid| == i
      invariant forall t :: 0 <= t < i ==> |grid[t]| == size
    {
      grid := grid + [gridLine];
      i := i + 1;
    }
    i := 0;
    while i < size
      invariant 0 <= i <= size
      invariant |grid| == size
      invariant forall t :: 0 <= t < size ==> |grid[t]| == size
      invariant forall t, u :: 0 <= t < i && 0 <= u < size ==> grid[t][u] == GridPosition(x, y, sep, t, u)
    {
      // Each column `grid[i]` is its own sequence, so filling it leaves the other columns unchanged.
      var column := grid[i];
      var j := 0;
      while j < size
        invariant 0 <= j <= size
        invariant |column| == size
        invariant forall u :: 0 <= u < j ==> column[u] == GridPosition(x, y, sep, i, u)
      {
        column := column[j := GridPosition(x, y, sep, i, j)];
        j := j + 1;
      }
      grid := grid[i := column];
      i := i + 1;
    }
  }

  /** Creates one free node per grid cell outside row 0, column by column. */
  method PlaceFreeNodes(grid: seq<seq<Point>>, x: int, y: int, size: nat, sep: int) returns (free: seq<Point>)
    requires GridLaidOut(grid, x, y, size, sep)
    ensures FreeNodesPlaced(free, x, y, size, sep)
  {
    free := [];
    var i := 0;
    while i < size
      invariant 0 <= i <= size
      invariant |free| == Blocks(i, PerColumn(size))
      invariant FreeNodesAtCells(free, x, y, size, sep)
    {
      var j := 1;
      while j < size
        invariant 1 <= j <= size
        invariant |free| == Blocks(i, PerColumn(size)) + (j - 1)
        invariant FreeNodesAtCells(free, x, y, size, sep)
      {
        PlaceOne(grid, free, x, y, size, sep, i, j);
        free := free + [grid[i][j]];
        j := j + 1;
      }
      i := i + 1;
    }
  }

  /** Appending cell `(i, j)` as the next free node keeps every free node at its (Column, Row) cell. */
  lemma PlaceOne(grid: seq<seq<Point>>, free: seq<Point>, x: int, y: int, size: nat, sep: int, i: nat, j: nat)
    requires GridLaidOut(grid, x, y, size, sep) && FreeNodesAtCells(free, x, y, size, sep)
    requires i < size && 1 <= j < size && |free| == Blocks(i, size - 1) + (j - 1)
    ensures FreeNodesAtCells(free + [grid[i][j]], x, y, size, sep)
  {
    BlocksIsProduct(i, size - 1);
    FlatIndex(i, j - 1, size - 1);
  }

  /** A net of `size` columns holds `size * (size - 1)` free nodes. */
  lemma FreeCountIsProduct(size: nat)
    ensures FreeCount(size) == size * (size - 1)
  {
    BlocksIsProduct(size, PerColumn(size));
  }

  /** Cell `(i, j)` below the top row is free node `i * (size - 1) + j - 1`, inside the free list. */
  lemma FreeIndexOfCell(size: nat, i: nat, j: nat)
    requires size >= 2 && i < size && 1 <= j < size
    ensures i * (size - 1) + j - 1 < FreeCount(size)
    ensures Column(size - 1, i * (size - 1) + j - 1) == i && Row(size - 1, i * (size - 1) + j - 1) == j
  {
    var m := size - 1;
    FlatIndex(i, j - 1, m);
    MulMonotone(i + 1, size, m);
    MulSucc(i, m);
    FreeCountIsProduct(size);
  }

  /**
   Conversely, every grid cell below the top row is a free node: cell
   `(i, j)` with `j >= 1` is free node `i * (size - 1) + j - 1`.
   */
  lemma FreeNodeOfCell(grid: seq<seq<Point>>, free: seq<Point>, x: int, y: int, size: nat, sep: int, i: nat, j: nat)
    requires GridLaidOut(grid, x, y, size, sep) && FreeNodesPlaced(free, x, y, size, sep)
    requires size >= 2 && i < size && 1 <= j < size
    ensures i * (size - 1) + j - 1 < |free| && free[i * (size - 1) + j - 1] == grid[i][j]
  {
    var k := i * (size - 1) + j - 1;
    FreeIndexOfCell(size, i, j);
    assert free[k] == GridPosition(x, y, sep, Column(size - 1, k), Row(size - 1, k));
  }

  /** With a positive separation, every free node starts strictly below the anchors' row. */
  lemma FreeNodesBelowAnchors(free: seq<Point>, x: int, y: int, size: nat, sep: int)
    requires FreeNodesPlaced(free, x, y, size, sep) && sep > 0
    ensures forall k :: 0 <= k < |free| ==> free[k].y < y
  {
    if size == 1 {
      assert FreeCount(1) == Blocks(0, 0) + 0;
    }
    forall k | 0 <= k < |free|
      ensures free[k].y < y
    {
      MulMonotone(1, Row(size - 1, k), sep);
    }
  }

  // ---------------------------------------------------------------------------
  // Anchors

  /** The top free node of column `i` has flat index `i * (size - 1)`, which exists. */
  lemma TopNodeOfColumn(size: nat, i: nat)
    requires size >= 2 && i < size
    ensures i * (size - 1) < FreeCount(size)
    ensures Column(size - 1, i * (size - 1)) == i && Row(size - 1, i * (size - 1)) == 1
  {
    FreeIndexOfCell(size, i, 1);
  }

  /** Pins the top free node of every column to a static anchor at the omitted top-row cell; fails when that node does not exist. */
  method PinAnchors(x: int, y: int, size: nat, sep: int, freeCount: nat) returns (r: Result<seq<Connector>>)
    requires freeCount == FreeCount(size)
    ensures r.Err? <==> size == 1
    ensures r.Ok? ==> AnchorsPinned(r.value, x, y, size, sep)
  {
    var fixed: seq<Connector> := [];
    var i := 0;
    while i < size
      invariant 0 <= i <= size
      invariant size == 1 ==> i == 0
      invariant |fixed| == i
      invariant forall t :: 0 <= t < i ==>
        && fixed[t].Pin?
        && fixed[t].node < freeCount
        && Column(size - 1, fixed[t].node) == t
        && fixed[t].node == t * (size - 1)
        && Row(size - 1, fixed[t].node) == 1
        && fixed[t].anchor == GridPosition(x, y, sep, t, 0)
    {
      var node := i * (size - 1);
      if size >= 2 {
        TopNodeOfColumn(size, i);
      }
      if node >= freeCount {
        return Err(IndexError);
      }
      fixed := fixed + [Pin(node, Point(x + i * sep, y))];
      i := i + 1;
    }
    return Ok(fixed);
  }

  // ---------------------------------------------------------------------------
  // Links

  /**
   The source's two guards are exactly grid adjacency: for a free node `a`,
   `b` is its south neighbour iff `b == a + 1` and `a` is not at the bottom
   of its column, and `b` is its east neighbour iff `b == a + m` and `a` is
   not in the last column.
   */
  lemma GuardsMatchAdjacency(size: nat, a: nat, b: nat)
    requires size >= 2 && a < FreeCount(size)
    ensures (SouthOf(size - 1, a, b) && b < FreeCount(size)) <==> (b == a + 1 && a % (size - 1) != size - 2)
    ensures (EastOf(size - 1, a, b) && b < FreeCount(size)) <==> (b == a + (size - 1) && a < FreeCount(size) - (size - 1))
  {
    if b == a + 1 && a % (size - 1) != size - 2 {
      SouthGuardIsSouth(size, a);
    }
    if SouthOf(size - 1, a, b) {
      SouthIsNext(size - 1, a, b);
    }
    if EastOf(size - 1, a, b) {
      EastIsNextBlock(size - 1, a, b);
    }
    StepOneBlock(a, size - 1);
  }

  /** A node that is not at the bottom of its column has its south neighbour at the next index, inside the net. */
  lemma SouthGuardIsSouth(size: nat, a: nat)
    requires size >= 2 && a < FreeCount(size) && a % (size - 1) != size - 2
    ensures SouthOf(size - 1, a, a + 1) && a + 1 < FreeCount(size)
  {
    var m := size - 1;
    StepWithinBlock(a, m);
    if a + 1 == FreeCount(size) {
      FreeCountIsProduct(size);
      MulSucc(size - 1, m);
      FlatIndex(size - 1, m - 1, m);
    }
  }

  /** A south neighbour is the next flat index, and only a node above the bottom row has one. */
  lemma SouthIsNext(m: nat, a: nat, b: nat)
    requires m > 0 && SouthOf(m, a, b)
    ensures b == a + 1 && a % m != m - 1
  {
    assert a == (a / m) * m + a % m;
    assert b == (b / m) * m + b % m;
  }

  /** An east neighbour is one whole column further on in the flat list. */
  lemma EastIsNextBlock(m: nat, a: nat, b: nat)
    requires m > 0 && EastOf(m, a, b)
    ensures b == a + m
  {
    assert a == (a / m) * m + a % m;
    assert b == (b / m) * m + b % m;
    MulSucc(a / m, m);
  }

  /**
   The links created while visiting free node `k` of a net with `n` free
   nodes: to its south neighbour unless `k` is the bottom of its column, then
   to its east neighbour unless `k` is among the last `size - 1` nodes.
   */
  function LinksAt(size: nat, n: nat, k: nat): (r: seq<Connector>)
    requires size >= 2
    ensures |r| <= 2
  {
    SouthLinks(size, k) + EastLinks(size, n, k)
  }

  /** The vertical link made at `k`: none when `k` is the bottom of its column. */
  function SouthLinks(size: nat, k: nat): seq<Connector>
    requires size >= 2
  {
    if k % (size - 1) == size - 2 then [] else [Link(k, k + 1)]
  }

  /** The horizontal link made at `k`: none when `k` is among the last `size - 1` of the `n` free nodes. */
  function EastLinks(size: nat, n: nat, k: nat): seq<Connector>
    requires size >= 2
  {
    if k >= n - (size - 1) then [] else [Link(k, k + (size - 1))]
  }

  /** Every entry of `cs` is a link going forward from a free node to one of its grid neighbours. */
  ghost predicate ForwardNeighbourLinks(cs: seq<Connector>, size: nat)
  {
    forall i :: 0 <= i < |cs| ==> cs[i].Link? && cs[i].from < cs[i].to && Adjacent(size, cs[i].from, cs[i].to)
  }

  /** Every entry of `cs` is a link starting below `k`. */
  predicate LinksFromBelow(cs: seq<Connector>, k: nat)
  {
    forall i :: 0 <= i < |cs| ==> cs[i].Link? && cs[i].from < k
  }

  /** Every link created at `k` goes forward to a grid neighbour of `k`. */
  lemma LinksAtSound(size: nat, k: nat)
    requires size >= 2 && k < FreeCount(size)
    ensures ForwardNeighbourLinks(LinksAt(size, FreeCount(size), k), size)
  {
    var n, m := FreeCount(size), size - 1;
    var south, east := SouthLinks(size, k), EastLinks(size, n, k);
    if south != [] {
      GuardsMatchAdjacency(size, k, k + 1);
    }
    if east != [] {
      GuardsMatchAdjacency(size, k, k + m);
    }
    SoundAppend(size, south, east);
  }

  /** Every grid neighbour of `k` to the south or east is linked from `k` while visiting `k`. */
  lemma LinksAtComplete(size: nat, k: nat)
    requires size >= 2 && k < FreeCount(size)
    ensures forall b: nat :: Adjacent(size, k, b) ==> Link(k, b) in LinksAt(size, FreeCount(size), k)
  {
    forall b: nat | Adjacent(size, k, b)
      ensures Link(k, b) in LinksAt(size, FreeCount(size), k)
    {
      GuardsMatchAdjacency(size, k, b);
    }
  }

  /** The south link, when there is one, comes before the east link, and both start at `k`. */
  lemma LinksAtOrdered(size: nat, n: nat, k: nat)
    requires size >= 2
    ensures LinksOrdered(LinksAt(size, n, k))
    ensures forall i :: 0 <= i < |LinksAt(size, n, k)| ==> LinksAt(size, n, k)[i].Link? && LinksAt(size, n, k)[i].from == k
  {
  }

  /** The links at `k` count one south link unless `k` is a column bottom, one east link unless `k` is in the last column, and nothing else. */
  lemma CountLinksAt(size: nat, n: nat, k: nat)
    requires size >= 2
    ensures CountGoing(size - 1, LinksAt(size, n, k), South) == if k % (size - 1) != size - 2 then 1 else 0
    ensures CountGoing(size - 1, LinksAt(size, n, k), East) == if k < n - (size - 1) then 1 else 0
    ensures |LinksAt(size, n, k)| == CountGoing(size - 1, LinksAt(size, n, k), South) + CountGoing(size - 1, LinksAt(size, n, k), East)
  {
    var m := size - 1;
    var south, east := SouthLinks(size, k), EastLinks(size, n, k);
    CountGoingAppend(m, south, east);
    CountOne(m, Link(k, k + 1));
    CountOne(m, Link(k, k + m));
    if south != [] {
      SouthLinkGoesSouth(m, k);
    }
    if east != [] {
      EastLinkGoesEast(m, k);
    }
    assert [] + east == east && south + [] == south;
  }

  /** A single link counts once in its own direction and nowhere else. */
  lemma CountOne(m: nat, c: Connector)
    requires m > 0
    ensures forall d :: CountGoing(m, [c], d) == if Goes(m, c, d) then 1 else 0
  {
    assert [c][..0] == [];
  }

  /** The link created by the vertical guard goes south and not east. */
  lemma SouthLinkGoesSouth(m: nat, k: nat)
    requires m > 0 && k % m != m - 1
    ensures Goes(m, Link(k, k + 1), South) && !Goes(m, Link(k, k + 1), East)
  {
    StepWithinBlock(k, m);
  }

  /** The link created by the horizontal guard goes east and not south. */
  lemma EastLinkGoesEast(m: nat, k: nat)
    requires m > 0
    ensures Goes(m, Link(k, k + m), East) && !Goes(m, Link(k, k + m), South)
  {
    StepOneBlock(k, m);
  }

  /**
   Links every free node to its south neighbour (unless it is the bottom of
   its column) and to its east neighbour (unless it is in the last column),
   walking the free nodes in index order.
   */
  method WireLinks(size: nat, freeCount: nat) returns (conns: seq<Connector>)
    requires freeCount == FreeCount(size)
    ensures LinksWired(conns, size)
  {
    conns := [];
    if size >= 2 {
      var k := 0;
      while k < freeCount
        invariant k <= freeCount && conns == LinksUpTo(size, freeCount, k)
      {
        conns := conns + LinksAt(size, freeCount, k);
        k := k + 1;
      }
    }
    assert conns == Wiring(size);
    WiringComplete(size);
  }

  /** The links created while visiting the free nodes below `k` of a net with `n` free nodes, in visiting order. */
  function LinksUpTo(size: nat, n: nat, k: nat): seq<Connector>
    requires size >= 2
  {
    if k == 0 then [] else LinksUpTo(size, n, k - 1) + LinksAt(size, n, k - 1)
  }

  /** All links of a net of `size` columns, in creation order. */
  function Wiring(size: nat): seq<Connector>
  {
    if size < 2 then [] else LinksUpTo(size, FreeCount(size), FreeCount(size))
  }

  /** Every link created before visiting `k` goes forward and joins grid neighbours. */
  lemma {:induction false} LinksUpToSound(size: nat, k: nat)
    requires size >= 2 && k <= FreeCount(size)
    ensures ForwardNeighbourLinks(LinksUpTo(size, FreeCount(size), k), size)
  {
    if k > 0 {
      var n := FreeCount(size);
      LinksUpToSound(size, k - 1);
      LinksAtSound(size, k - 1);
      SoundAppend(size, LinksUpTo(size, n, k - 1), LinksAt(size, n, k - 1));
    }
  }

  /** Forward neighbour links followed by forward neighbour links are forward neighbour links. */
  lemma SoundAppend(size: nat, cs: seq<Connector>, ds: seq<Connector>)
    requires ForwardNeighbourLinks(cs, size) && ForwardNeighbourLinks(ds, size)
    ensures ForwardNeighbourLinks(cs + ds, size)
  {
    forall i | 0 <= i < |cs + ds|
      ensures (cs + ds)[i].Link? && (cs + ds)[i].from < (cs + ds)[i].to && Adjacent(size, (cs + ds)[i].from, (cs + ds)[i].to)
    {
      if i >= |cs| {
        assert (cs + ds)[i] == ds[i - |cs|];
      }
    }
  }

  /** Every neighbour pair whose first node lies below `k` is linked once `k` is reached. */
  lemma {:induction false} LinksUpToComplete(size: nat, k: nat)
    requires size >= 2 && k <= FreeCount(size)
    ensures forall a: nat, b: nat :: a < k && Adjacent(size, a, b) ==> Link(a, b) in LinksUpTo(size, FreeCount(size), k)
  {
    if k > 0 {
      var n := FreeCount(size);
      LinksUpToComplete(size, k - 1);
      LinksAtComplete(size, k - 1);
      CompleteAppend(size, LinksUpTo(size, n, k - 1), LinksAt(size, n, k - 1), k - 1);
    }
  }

  /** Links covering the neighbour pairs from below `k`, followed by links covering those from `k`, cover those from below `k + 1`. */
  lemma CompleteAppend(size: nat, cs: seq<Connector>, ds: seq<Connector>, k: nat)
    requires forall a: nat, b: nat :: a < k && Adjacent(size, a, b) ==> Link(a, b) in cs
    requires forall b: nat :: Adjacent(size, k, b) ==> Link(k, b) in ds
    ensures forall a: nat, b: nat :: a < k + 1 && Adjacent(size, a, b) ==> Link(a, b) in cs + ds
  {
    forall a: nat, b: nat | a < k + 1 && Adjacent(size, a, b)
      ensures Link(a, b) in cs + ds
    {
      if a < k {
        assert Link(a, b) in cs;
      } else {
        assert Link(a, b) in ds;
      }
    }
  }

  /** The links are created in strictly increasing (from, to) order, all from nodes already visited. */
  lemma {:induction false} LinksUpToOrdered(size: nat, n: nat, k: nat)
    requires size >= 2
    ensures LinksOrdered(LinksUpTo(size, n, k))
    ensures LinksFromBelow(LinksUpTo(size, n, k), k)
  {
    if k > 0 {
      LinksUpToOrdered(size, n, k - 1);
      LinksAtOrdered(size, n, k - 1);
      OrderedAppend(LinksUpTo(size, n, k - 1), LinksAt(size, n, k - 1), k - 1);
    }
  }

  /** Appending the links made at `k` adds that node's vertical and horizontal links to the counts and nothing else. */
  lemma AppendLinksAt(size: nat, n: nat, k: nat, cs: seq<Connector>)
    requires size >= 2
    ensures CountGoing(size - 1, cs + LinksAt(size, n, k), South) == CountGoing(size - 1, cs, South) + if k % (size - 1) != size - 2 then 1 else 0
    ensures CountGoing(size - 1, cs + LinksAt(size, n, k), East) == CountGoing(size - 1, cs, East) + if k < n - (size - 1) then 1 else 0
    ensures |cs + LinksAt(size, n, k)| - CountGoing(size - 1, cs + LinksAt(size, n, k), South) - CountGoing(size - 1, cs + LinksAt(size, n, k), East)
         == |cs| - CountGoing(size - 1, cs, South) - CountGoing(size - 1, cs, East)
  {
    CountLinksAt(size, n, k);
    CountGoingAppend(size - 1, cs, LinksAt(size, n, k));
  }

  /** Before visiting `k`, one vertical link was made per visited node that is not the bottom of its column. */
  lemma {:induction false} LinksUpToSouth(size: nat, n: nat, k: nat)
    requires size >= 2
    ensures CountGoing(size - 1, LinksUpTo(size, n, k), South) == NotBottomBefore(size - 1, k)
  {
    if k > 0 {
      LinksUpToSouth(size, n, k - 1);
      AppendLinksAt(size, n, k - 1, LinksUpTo(size, n, k - 1));
      assert NotBottomBefore(size - 1, k) == NotBottomBefore(size - 1, k - 1) + if (k - 1) % (size - 1) != size - 2 then 1 else 0;
    }
  }

  /** Before visiting `k`, one horizontal link was made per visited node outside the last `size - 1` nodes. */
  lemma {:induction false} LinksUpToEast(size: nat, n: nat, k: nat)
    requires size >= 2
    ensures CountGoing(size - 1, LinksUpTo(size, n, k), East) == NotLastColumnBefore(size, n, k)
  {
    if k > 0 {
      LinksUpToEast(size, n, k - 1);
      AppendLinksAt(size, n, k - 1, LinksUpTo(size, n, k - 1));
    }
  }

  /** Number of indices below `k` that are not among the last `size - 1` of `n` free nodes. */
  function NotLastColumnBefore(size: nat, n: nat, k: nat): nat
    requires size >= 2
  {
    if k == 0 then 0 else NotLastColumnBefore(size, n, k - 1) + (if k - 1 < n - (size - 1) then 1 else 0)
  }

  /** Below `k`, every index passes the horizontal guard until the last column starts at `n - (size - 1)`. */
  lemma {:induction false} NotLastColumnBeforeValue(size: nat, n: nat, k: nat)
    requires size >= 2 && n >= size - 1
    ensures NotLastColumnBefore(size, n, k) == if k + (size - 1) <= n then k else n - (size - 1)
  {
    if k > 0 {
      NotLastColumnBeforeValue(size, n, k - 1);
    }
  }

  /** Every link created before visiting `k` is either vertical or horizontal. */
  lemma {:induction false} LinksUpToLength(size: nat, n: nat, k: nat)
    requires size >= 2
    ensures |LinksUpTo(size, n, k)| == CountGoing(size - 1, LinksUpTo(size, n, k), South) + CountGoing(size - 1, LinksUpTo(size, n, k), East)
  {
    if k > 0 {
      LinksUpToLength(size, n, k - 1);
      AppendLinksAt(size, n, k - 1, LinksUpTo(size, n, k - 1));
    }
  }

  /** The links created by visiting every free node are exactly the wired net's links. */
  lemma WiringComplete(size: nat)
    ensures LinksWired(Wiring(size), size)
  {
    if size >= 2 {
      var n := FreeCount(size);
      var m := size - 1;
      LinksUpToSound(size, n);
      LinksUpToComplete(size, n);
      LinksUpToOrdered(size, n, n);
      LinksUpToSouth(size, n, n);
      assert n == Blocks(size - 1, m) + m;
      LinksUpToEast(size, n, n);
      NotLastColumnBeforeValue(size, n, n);
      LinksUpToLength(size, n, n);
      NotBottomBeforeColumns(m, size);
      OrderedLinksAreDistinct(LinksUpTo(size, n, n));
    }
  }

  /** Counting links over a concatenation adds the counts of the parts. */
  lemma CountGoingAppend(m: nat, cs: seq<Connector>, ds: seq<Connector>)
    requires m > 0
    ensures forall d :: CountGoing(m, cs + ds, d) == CountGoing(m, cs, d) + CountGoing(m, ds, d)
  {
    forall d
      ensures CountGoing(m, cs + ds, d) == CountGoing(m, cs, d) + CountGoing(m, ds, d)
    {
      CountPrefix(m, cs, ds, d, |cs|);
      CountSuffix(m, cs, ds, d, |ds|);
    }
  }

  /** Within the first part of a concatenation, the count ignores the second part. */
  lemma {:induction false} CountPrefix(m: nat, cs: seq<Connector>, ds: seq<Connector>, d: Direction, i: nat)
    requires m > 0 && i <= |cs|
    ensures CountGoingBefore(m, cs + ds, d, i) == CountGoingBefore(m, cs, d, i)
  {
    if i > 0 {
      CountPrefix(m, cs, ds, d, i - 1);
      assert (cs + ds)[i - 1] == cs[i - 1];
    }
  }

  /** Past the first part of a concatenation, the count adds the second part's count. */
  lemma {:induction false} CountSuffix(m: nat, cs: seq<Connector>, ds: seq<Connector>, d: Direction, j: nat)
    requires m > 0 && j <= |ds|
    ensures CountGoingBefore(m, cs + ds, d, |cs| + j) == CountGoing(m, cs, d) + CountGoingBefore(m, ds, d, j)
  {
    if j > 0 {
      CountSuffix(m, cs, ds, d, j - 1);
      assert (cs + ds)[|cs| + j - 1] == ds[j - 1];
    } else {
      CountPrefix(m, cs, ds, d, |cs|);
    }
  }

  /** Appending links that all start at `k` after links that all start before `k` keeps the order. */
  lemma OrderedAppend(cs: seq<Connector>, ds: seq<Connector>, k: nat)
    requires LinksOrdered(cs) && LinksOrdered(ds)
    requires LinksFromBelow(cs, k)
    requires forall i :: 0 <= i < |ds| ==> ds[i].Link? && ds[i].from == k
    ensures LinksOrdered(cs + ds) && LinksFromBelow(cs + ds, k + 1)
  {
    var r := cs + ds;
    forall i, j | 0 <= i < j < |r|
      ensures LinkBefore(r[i], r[j])
    {
      if j < |cs| {
        assert r[i] == cs[i] && r[j] == cs[j];
      } else if i < |cs| {
        assert r[i] == cs[i] && r[j] == ds[j - |cs|];
      } else {
        assert r[i] == ds[i - |cs|] && r[j] == ds[j - |cs|];
      }
    }
  }

  /** Number of indices below `k` that are not the bottom node of their column. */
  function NotBottomBefore(m: nat, k: nat): nat
    requires m > 0
  {
    if k == 0 then 0 else NotBottomBefore(m, k - 1) + (if (k - 1) % m != m - 1 then 1 else 0)
  }

  /** Each whole column of `m` free nodes has `m - 1` nodes with a south neighbour. */
  lemma {:induction false} NotBottomBeforeColumns(m: nat, q: nat)
    requires m > 0
    ensures NotBottomBefore(m, Blocks(q, m)) == Blocks(q, m - 1)
  {
    if q > 0 {
      NotBottomBeforeColumns(m, q - 1);
      NotBottomWithinColumn(m, q - 1, m);
      assert Blocks(q, m) == Blocks(q - 1, m) + m;
      assert Blocks(q, m - 1) == Blocks(q - 1, m - 1) + (m - 1);
    }
  }

  /** The first `r` nodes of column `q` contribute `r` nodes, except the bottom one. */
  lemma {:induction false} NotBottomWithinColumn(m: nat, q: nat, r: nat)
    requires m > 0 && r <= m
    ensures NotBottomBefore(m, Blocks(q, m) + r) == NotBottomBefore(m, Blocks(q, m)) + (if r == m then m - 1 else r)
  {
    if r > 0 {
      NotBottomWithinColumn(m, q, r - 1);
      BlocksIsProduct(q, m);
      FlatIndex(q, r - 1, m);
    }
  }

  /** Links in strictly increasing order, each going forward, never repeat an unordered pair. */
  lemma OrderedLinksAreDistinct(cs: seq<Connector>)
    requires LinksOrdered(cs)
    requires forall i :: 0 <= i < |cs| ==> cs[i].Link? && cs[i].from < cs[i].to
    ensures NoDuplicateLinks(cs)
  {
  }

  // ---------------------------------------------------------------------------
  // The constructor and what it guarantees

  /**
   Builds the net at `(x, y)` with `size` columns and rows and `sep` between
   neighbours. A non-positive size iterates over nothing and yields an empty
   net; size 1 has no free node for the first anchor and fails.
   */
  method BuildNet(x: int, y: int, size: int, sep: int) returns (r: Result<Net>)
    ensures r.Err? <==> size == 1
    ensures r.Ok? && size <= 0 ==> r.value == Net([], [], [], [])
    ensures r.Ok? && size >= 0 ==> WiredNet(r.value, x, y, size, sep)
  {
    var n: nat := if size < 0 then 0 else size;
    var grid := BuildGrid(x, y, n, sep);
    var free := PlaceFreeNodes(grid, x, y, n, sep);
    var fixed := PinAnchors(x, y, n, sep, |free|);
    if fixed.Err? {
      return Err(fixed.error);
    }
    var conns := WireLinks(n, |free|);
    return Ok(Net(grid, free, fixed.value, conns));
  }

  /** A built net has `size * (size - 1)` free nodes, `size` anchors, `size * (size - 2)` vertical and `(size - 1)^2` horizontal joints. */
  lemma NetCounts(net: Net, x: int, y: int, size: nat, sep: int)
    requires WiredNet(net, x, y, size, sep) && size >= 2
    ensures |net.freeNodes| == size * (size - 1) && |net.fixedNodes| == size
    ensures CountGoing(size - 1, net.connectors, South) == size * (size - 2)
    ensures CountGoing(size - 1, net.connectors, East) == (size - 1) * (size - 1)
    ensures |net.connectors| == size * (size - 2) + (size - 1) * (size - 1)
  {
    FreeCountIsProduct(size);
    BlocksIsProduct(size, size - 2);
    BlocksIsProduct(size - 1, size - 1);
  }

  /** Grid neighbours in the south or east direction are one separation apart in exactly that direction. */
  lemma NeighbourPositions(x: int, y: int, sep: int, m: nat, a: nat, b: nat)
    requires m > 0 && (SouthOf(m, a, b) || EastOf(m, a, b))
    ensures UnitStep(GridPosition(x, y, sep, Column(m, a), Row(m, a)), GridPosition(x, y, sep, Column(m, b), Row(m, b)), sep)
  {
    if SouthOf(m, a, b) {
      MulSucc(Row(m, a), sep);
    } else {
      MulSucc(Column(m, a), sep);
    }
  }

  /**
   Every body-to-body joint of a built net joins two distinct existing free
   nodes whose start positions are one separation apart, either side by side
   or one above the other.
   */
  lemma LinkedNodesAreNeighbours(net: Net, x: int, y: int, size: nat, sep: int)
    requires WiredNet(net, x, y, size, sep)
    ensures forall c :: c in net.connectors ==>
      && c.Link?
      && c.from != c.to
      && c.from < |net.freeNodes| && c.to < |net.freeNodes|
      && UnitStep(net.freeNodes[c.from], net.freeNodes[c.to], sep)
  {
    forall c | c in net.connectors
      ensures c.Link? && c.from != c.to && c.from < |net.freeNodes| && c.to < |net.freeNodes|
      ensures UnitStep(net.freeNodes[c.from], net.freeNodes[c.to], sep)
    {
      NeighbourPositions(x, y, sep, size - 1, c.from, c.to);
    }
  }

  /**
   Every anchor of a built net sits one separation straight above the free
   node it pins, on the net's top row at `y`, and no two anchors pin the same
   node.
   */
  lemma AnchorsAboveTopNodes(net: Net, x: int, y: int, size: nat, sep: int)
    requires WiredNet(net, x, y, size, sep) && size >= 2
    ensures forall i :: 0 <= i < |net.fixedNodes| ==>
      && net.fixedNodes[i].Pin?
      && net.fixedNodes[i].node < |net.freeNodes|
      && net.fixedNodes[i].anchor == net.grid[i][0]
      && net.fixedNodes[i].anchor.y == y
      && net.freeNodes[net.fixedNodes[i].node] == Point(net.fixedNodes[i].anchor.x, net.fixedNodes[i].anchor.y - sep)
    ensures forall i, j :: 0 <= i < j < |net.fixedNodes| ==> net.fixedNodes[i].node != net.fixedNodes[j].node
  {
    forall i | 0 <= i < |net.fixedNodes|
      ensures net.freeNodes[net.fixedNodes[i].node] == Point(net.fixedNodes[i].anchor.x, net.fixedNodes[i].anchor.y - sep)
    {
      assert (0 + 1) * sep == sep;
    }
  }

  /** The demonstration net at (300, 500) with 4 columns 100 apart: 12 free nodes, 4 anchors, 8 vertical and 9 horizontal joints. */
  lemma DemoNet(net: Net)
    requires WiredNet(net, 300, 500, 4, 100)
    ensures |net.freeNodes| == 12 && |net.fixedNodes| == 4 && |net.connectors| == 17
    ensures CountGoing(3, net.connectors, South) == 8 && CountGoing(3, net.connectors, East) == 9
    ensures net.freeNodes[0] == Point(300, 400) && net.freeNodes[11] == Point(600, 200)
    ensures net.fixedNodes[3] == Pin(9, Point(600, 500))
  {
    DemoFreeNodes(net.freeNodes);
    DemoAnchor(net.fixedNodes);
  }

  /** The first and last free nodes of the demonstration net. */
  lemma DemoFreeNodes(free: seq<Point>)
    requires FreeNodesPlaced(free, 300, 500, 4, 100)
    ensures |free| == 12 && free[0] == Point(300, 400) && free[11] == Point(600, 200)
  {
    assert Column(3, 0) == 0 && Row(3, 0) == 1;
    assert Column(3, 11) == 3 && Row(3, 11) == 3;
    assert free[11] == GridPosition(300, 500, 100, 3, 3);
  }

  /** The last anchor of the demonstration net pins free node 9, the top of the last column. */
  lemma DemoAnchor(fixed: seq<Connector>)
    requires AnchorsPinned(fixed, 300, 500, 4, 100)
    ensures |fixed| == 4 && fixed[3] == Pin(9, Point(600, 500))
  {
  }
}
